=== FILE: README.md ===
# Modelfile rewriting and blob upload of the Deno ollama client

This project models, in Dafny, the part of the Deno `Ollama` client
(`src/index.ts`) that prepares a `create` request. It proves properties of
that model.

- `parseModelfile` splits a modelfile into lines and handles them in
  order. A line that is no `FROM`/`ADAPTER` directive passes through. A
  directive whose argument names an existing local path becomes
  `<command> @<digest>` once the file is uploaded. A directive naming
  nothing local becomes `<command> <args>`, where `args` is only its second
  space-separated field. A directive without any space rejects the whole
  rewrite, and so does the first failed upload.
- `resolvePath` turns a directive argument into a path. It replaces a
  leading `~` with `HOME`; anything else is resolved against the
  modelfile's directory.
- `fileExists` asks whether `stat` succeeds.
- `createBlob` reads the file and names it `sha256:<digest>`. It probes
  `<host>/api/blobs/<digest>` with HEAD and uploads with POST only when the
  probe fails with a "404" error.
- `create` picks the modelfile text and its base directory, rewrites it,
  and hands the request to the base class's `create` once.

Everything outside the client is a parameter, the `Env` datatype in
`runtime.dfy`:
- the file system, as a map from path to file content or directory;
- `HOME`, the working directory, and whether `ReadableStream` exists;
- the `path` library's `join`/`resolve`/`dirname`;
- the digest text and the UTF-8 decoder;
- the transport, which answers each HEAD or POST given the events before it;
- the base-class `create`.

Every operation returns its result together with a trace of the events it
caused: `Read(path)`, `Head(url, reply)`, `Post(url, body, reply)` and
`CreateModel(request, overload)`. The two HTTP events carry the reply they
got; whether a read succeeded follows from the file system, and what the
base-class call answered is the result of `create` itself.

Modules, one per file:
- `JsString` (`jsstring.dfy`): the JavaScript string operations the
  rewriter relies on. These are `split` with and without a limit, `join`,
  `trim` (the full ECMAScript white-space set), upper-casing and `includes`.
- `Runtime` (`runtime.dfy`): the environment, the events and the failures.
- `Paths` (`paths.dfy`): `resolvePath` and `fileExists`.
- `Blobs` (`blobs.dfy`): `createBlob`.
- `Modelfile` (`modelfile.dfy`): `parseModelfile` and the reference
  predicate `Rewrites`. `Rewrites` says what one output line is, without
  reference to the transport.
- `Client` (`client.dfy`): `create`.
- `Scenarios` (`scenarios.dfy`): whole runs over one- and two-line
  modelfiles.

## Behaviour as written

Defects of the code, modelled as written:

- `fileExists` reads `.isFile` at src/index.ts:60 and throws the value
  away, so any path `stat` finds "exists", a directory included. `readFile`
  then fails on a directory, and the whole rewrite rejects
  (`DirectoryDirectiveFails`).
- A directive naming nothing local is not left as it was. It becomes
  `<command> <args>`, where `args` is only the second space-separated field,
  so anything after a second space is dropped
  (`UnresolvedDirectiveKeptIffOneSpace`). The argument is also the text
  after the first single space, not after the first run of white space.
- A `FROM`/`ADAPTER` line without any space rejects the whole rewrite: `args`
  is `undefined`, so `args.trim()` throws (`DirectiveWithoutArgumentAborts`).
- Uploads are not de-duplicated within one modelfile
  (`RepeatedReferenceIsReadTwice`).
- The digest is never awaited. The text after `sha256:` is the string form of
  a Promise, `[object Promise]`, the same for every file. It holds a space.
  For such digest text, a second rewrite of the output is not a no-op
  (`TwoWordDigestBreaksSecondPass`). The no-op property holds only for
  digest text without spaces or line breaks that names no local path
  (`SecondPassIsNoOp`); for the Promise text itself see
  `PromiseDigestBreaksSecondPass`.
- The upload body cannot arrive. The stream's `start` enqueues the file,
  calls `close()` and then `error()`. With a chunk still queued, `close()`
  only marks the stream as closing and it stays readable, so `error()`
  empties the queue and errors the stream before anyone reads it (Streams
  Standard, `ReadableStreamDefaultControllerClose` and
  `ReadableStreamDefaultControllerError`). The POST therefore fails on its
  body. The model leaves the POST reply to the transport, so an accepted
  upload (`UploadAfterNotFound`) is a case the code as written does not
  reach against a conforming stream implementation.
- `create` writes the rewritten text into the caller's request object
  (src/index.ts:129). The caller sees it afterwards, even when the base-class
  call rejects (`RequestAfterCreate`).

## Model

| member | source | states |
|---|---|---|
| JsString.Split | src/index.ts:34 | `split('\n')` gives at least one part, exactly one when the separator is absent, and no part contains the separator |
| JsString.SplitCount | src/index.ts:34 | n separators give n + 1 parts, so `""` gives one empty line |
| JsString.JoinSplit | src/index.ts:34-48 | joining the parts of a split on the same separator gives back the input |
| JsString.SplitJoin | src/index.ts:34-48 | splitting the join of separator-free parts gives back those parts |
| JsString.SplitAppend | src/index.ts:34 | a separator-free prefix followed by the separator is the first part, and the rest splits on its own |
| JsString.SplitNoSep | src/index.ts:34 | text without the separator is a single part |
| JsString.SplitFirst | src/index.ts:36 | the first part is the prefix up to the first separator, and what follows that separator splits into the remaining parts |
| JsString.FirstTwoParts | src/index.ts:36 | `split(' ', 2)` keeps the text before the first space, plus the text up to the next space when there is one |
| JsString.JoinTwo | src/index.ts:48 | two lines join to the first, a line break, and the second |
| JsString.TrimStart | src/index.ts:38 | what is dropped is white space, and the result is a suffix that starts with non-white space |
| JsString.TrimEnd | src/index.ts:38 | what is dropped is white space, and the result is a prefix that ends with non-white space |
| JsString.Trim | src/index.ts:38 | `trim()` is the infix of its input with only white space around it, has no white space at either end, and is empty only for all-white-space input |
| JsString.UpperAscii | src/index.ts:37 | upper-casing keeps the length, maps each lower-case ASCII letter to its upper-case letter and keeps every other character |
| JsString.UpperAsciiIff | src/index.ts:37 | an upper-case word is the upper-casing of a string exactly when the string equals it up to the case of each letter |
| JsString.Join | src/index.ts:48 | `join('\n')`; its partners `JoinSplit` and `SplitJoin` state the round trips with `split` |
| Paths.ResolvePath | src/index.ts:51-56 | `resolvePath`; `ResolvePathCases` states its two branches |
| Paths.FileExists | src/index.ts:58-65 | `fileExists` is true exactly when `stat` finds the path, directories included |
| Paths.ResolvePathCases | src/index.ts:51-56 | `~rest` maps to `join(HOME, rest)` whatever the base directory; anything else maps to `resolve(mfDir, input)` whatever HOME is |
| Paths.UnsetHomeIsEmptyHome | src/index.ts:53 | an unset and an empty HOME resolve `~` arguments alike, to `join("", rest)` |
| Blobs.CreateBlob | src/index.ts:67-105 | without `ReadableStream`, rejection before any I/O. Otherwise one read, then HEAD at `/api/blobs/sha256:<digest>`, then a POST of the content to the same URL exactly when the server's answer to HEAD was a "404" error. Each recorded reply is the server's answer given the events before it. Resolves exactly when the last request did, to the `sha256:`-prefixed digest; otherwise rethrows that request's error |
| Blobs.IsNotFound | src/index.ts:85 | the probe failure that triggers an upload: an `Error` whose message includes "404" |
| Blobs.RequestsAfterRead | src/index.ts:75-98 | a read followed by HTTP requests reads one path and counts one call per request |
| Blobs.SecondCreateBlobSkipsUpload | src/index.ts:82-104 | against a server that keeps what it confirmed, calling `createBlob` again for the same file gives the same digest after one probe and no POST |
| Blobs.DigestIsContentAddressed | src/index.ts:75-83 | files with equal bytes are probed at the same URL and resolve to the same digest, whatever their paths and whatever came before |
| Modelfile.SplitCommand | src/index.ts:36 | the command is the text before the first space, the whole line when there is none; `args` is absent exactly when the line has no space, and otherwise runs to the second space or the end of the line |
| Modelfile.IsKeyword | src/index.ts:37 | `command.toUpperCase()` is `FROM` or `ADAPTER`; `IsKeywordIff` states it without upper-casing |
| Modelfile.IsKeywordIff | src/index.ts:37 | a command is a keyword exactly when it equals `FROM` or `ADAPTER` up to the case of each letter |
| Modelfile.LocalTarget | src/index.ts:35-39 | the path a line uploads: a FROM/ADAPTER line with an argument whose resolved, trimmed path `fileExists` accepts |
| Modelfile.RewriteLine | src/index.ts:36-46 | a successful line rewrite meets `Rewrites`. A line naming nothing local reads and sends nothing, and fails only as a FROM/ADAPTER line without a space, with the `TypeError`. A line naming a local file has exactly the events of its `createBlob` and fails exactly when that does, with the same failure |
| Modelfile.FirstFailureAborts | src/index.ts:33-47 | no partial success: when the lines before line k rewrote, uploads included, a failure of line k is the failure of the whole rewrite, whose events are those of the earlier lines followed by line k's |
| Modelfile.OnlyActiveLinesFail | src/index.ts:33-47 | a rejected rewrite has a line that is a FROM/ADAPTER line without an argument or names a local file |
| Modelfile.RewriteLines | src/index.ts:33-47 | a successful rewrite keeps the line count, and output line i meets `Rewrites` for input line i alone. Files are read in line order, once per referencing line; a failure stops the reading early |
| Modelfile.ParseModelfile | src/index.ts:29-49 | the paths read are a prefix of the local targets of the `'\n'`-separated lines, all of them on success; at most two requests per read; no create call; its events are the loop's, and a rejection of the loop is passed on unchanged |
| Modelfile.ParsePreservesLines | src/index.ts:34-48 | with single-line digest text, a successful rewrite has as many lines as its input, and output line i rewrites input line i |
| Modelfile.RewriteStaysOnOneLine | src/index.ts:40-45 | a rewritten line never gains a line break when the digest text has none |
| Modelfile.SettledLineIsFixed | src/index.ts:35-46 | a non-directive line, or a directive that names nothing local and has a single space, comes back as it was, with nothing read or sent |
| Modelfile.SettledLinesAreFixed | src/index.ts:33-47 | a list of such lines comes back as it was, with nothing read or sent |
| Modelfile.SettledModelfileIsFixed | src/index.ts:29-49 | a modelfile whose lines are all settled comes back unchanged, with nothing read or sent |
| Modelfile.BlankAndIndentedLinesPassThrough | src/index.ts:36-45 | blank lines and lines starting with a space have an empty command and pass through unchanged, without even a `stat` |
| Modelfile.SplitCommandOfJoined | src/index.ts:36 | `command + " " + args` with space-free parts splits back into that command and argument |
| Modelfile.UnresolvedDirectiveKeptIffOneSpace | src/index.ts:36-42 | a directive naming nothing local becomes `<command> <args>`, which equals the line exactly when the line holds one space |
| Modelfile.DirectiveWithoutArgumentAborts | src/index.ts:36-38 | a FROM/ADAPTER line without a space makes the whole rewrite reject |
| Modelfile.DirectoryDirectiveFails | src/index.ts:58-65 | a directive naming a directory passes `fileExists`, and the read then rejects the line |
| Modelfile.NoStreamsNoReads | src/index.ts:68-72 | without `ReadableStream` the rewrite loop causes no events at all |
| Modelfile.WithoutStreamsNothingIsSent | src/index.ts:67-72 | without `ReadableStream` nothing is read or sent, and a modelfile with a local reference rejects |
| Modelfile.RepeatedReferenceIsReadTwice | src/index.ts:35-40 | two lines naming the same local file read it twice |
| Modelfile.TargetsOfRepeat | src/index.ts:35-40 | a repeated reference is a repeated local target |
| Modelfile.KeptDirectiveIsSettled | src/index.ts:41-42 | a directive whose space-free argument names nothing local is settled |
| Modelfile.UploadedDirectiveIsSettled | src/index.ts:40 | with space-free digest text naming nothing local, `<command> @<digest>` is settled |
| Modelfile.RewrittenLineIsSettled | src/index.ts:35-46 | under the same digest assumptions, every rewritten line is settled |
| Modelfile.SecondPassIsNoOp | src/index.ts:29-49 | under those assumptions, rewriting the output again returns it unchanged, reading and sending nothing |
| Modelfile.PointwiseCons | src/index.ts:35-47 | the line-i relation of the loop extends from the tail to the whole list |
| Client.Truthy | src/index.ts:116-124 | the `if (request.path)` / `else if (request.modelfile)` tests: set and non-empty |
| Client.OverloadFor | src/index.ts:132-136 | only `stream === true` picks the streaming overload |
| Client.WithModelfile | src/index.ts:129 | only the `modelfile` field of the request changes |
| Client.Forward | src/index.ts:129-136 | a failed rewrite forwards nothing. A successful one appends one create call carrying the rewritten text, with the overload chosen by `stream`, and settles as that call does |
| Client.Create | src/index.ts:112-137 | neither path nor modelfile rejects before any I/O; a path is read first, and an unreadable one rejects with `ReadFailed` right there; the chosen rewrite's reads, probes and uploads follow, and its rejection is `create`'s, with nothing else done; at most one create call, always last, made exactly when that rewrite succeeded, with the request changed only in `modelfile`; when made, `create` settles as that call did |
| Client.Settle | src/index.ts:133-135 | `return super.create(...)`: resolves exactly when the base-class call resolves, with its response, and otherwise rejects with its thrown value |
| Client.RequestAfterCreate | src/index.ts:115-129 | the caller's request after `create` is the forwarded one whenever a create call was made, whatever that call answered, and is untouched when none was |
| Client.CreateRewritesTheRightText | src/index.ts:116-125 | on success, the forwarded text is the rewrite of the decoded file against `dirname(path)` when a path is given, else of the inline text against the working directory |
| Client.PathTakesPrecedence | src/index.ts:116-129 | when a path is given, the inline modelfile does not matter |
| Client.FailedRewriteForwardsNothing | src/index.ts:116-129 | a failed rewrite makes `create` reject without any create call |
| Scenarios.UploadAfterNotFound | src/index.ts:29-49 | `FROM <file>` then another line, probe 404, upload accepted: the trace is read, HEAD, POST to one URL, and the output is `FROM @sha256:<digest>` then the other line unchanged |
| Scenarios.RegistryReferenceUntouched | src/index.ts:35-43 | `FROM <name>` naming nothing local, then another line: the text comes back unchanged with no events |
| Scenarios.TwoWordDigestBreaksSecondPass | src/index.ts:76-80 | with two-word digest text, the first pass gives `FROM @sha256:<w1> <w2>` and a second pass cuts it to `FROM @sha256:<w1>` |
| Scenarios.PromiseDigestBreaksSecondPass | src/index.ts:76-80 | with every digest text `[object Promise]`, as the code produces it, the first pass gives `FROM @sha256:[object Promise]` and a second pass `FROM @sha256:[object` |
| Scenarios.PromiseTextIsTwoWords | src/index.ts:80 | `[object Promise]` is two space-free words on one line |
| Scenarios.KeywordsInAnyCase | src/index.ts:37 | `FROM`, `from`, `ADAPTER` and `Adapter` are keywords; `PARAMETER` is not |
| Scenarios.PageNotFoundIsNotFound | src/index.ts:85 | an `Error` whose message is "404 page not found" counts as not found |
| Scenarios.FirstLineThenOther | src/index.ts:33-48 | in a two-line modelfile whose second line is no directive, the first line's rewrite decides the result and the events |
| Scenarios.OneLine | src/index.ts:33-48 | a single-line modelfile is rewritten as its one line is |

## Left out

- I/O (`Deno.readFile`, `Deno.stat`, `Deno.env.get`, `Deno.cwd`, `TextDecoder`) is not performed. The file system, HOME, the working directory and the decoder are fields of `Env`.
- `crypto.subtle.digest` is an uninterpreted function `Env.hash` from bytes to text. Because the code never awaits it, the model claims no content sensitivity beyond the `sha256:` prefix and the use of one string everywhere.
- The `ReadableStream` built at src/index.ts:86-92 is not modelled. The POST event carries the file content as its body, and its reply is left to the transport. As written, `error()` after `close()` errors the stream while the file is still queued, so a conforming transport rejects the POST; the model does not force that rejection (see "Behaviour as written").
- `Deno.stat` is not an event: `fileExists` is a pure test of the file system, so "nothing read or sent" does not exclude a `stat` call.
- The normalisation done by the `path` library's `join`, `resolve` and `dirname` is left uninterpreted; only which function receives which arguments is modelled.
- `utils.head` and `utils.post` share one oracle, `Env.respond`, which tells the two calls apart by its `Call` argument; the base-class `create` is a second oracle, `Env.downstream`. Both answer from the trace so far. Fetch, HTTP status mapping and response streaming are not modelled.
- `async`/`await` scheduling is not modelled; the flow is sequential.
- `encodeImage` (src/index.ts:8-27) is not part of the core.
- The `Deno.test` (src/index.ts:143-153) is a live network test and is not modelled.
- Modelfile.IsKeyword: upper-cases ASCII letters only. No other character upper-cases into text that could complete `FROM` or `ADAPTER`: the only non-ASCII characters whose upper case is ASCII are ı, ſ, ß and the Latin ligatures.
- JsString.Split: strings are sequences of Unicode scalar values rather than UTF-16 code units. Nothing here splits a surrogate pair.
- Blobs.CreateBlob: a read fails only on a missing path or a directory. A permission error, or a file removed between `stat` and `readFile`, is modelled like one of those.
- Client.Create: the other fields of the request are summarised by `model`; they are forwarded unchanged.
- Client.Create: returns a copy of the request rather than changing the caller's object; the in-place assignment of src/index.ts:129 is stated separately by `Client.RequestAfterCreate`.

=== FILE: blobs.dfy ===
/**
 The content-addressed blob uploader (`createBlob`): read the file, name it
 by its digest, probe the server with HEAD and upload with POST only when the
 probe reports 404.
 */
module Blobs {
  import opened Runtime
  import opened JsString
  import opened Paths

  const DigestPrefix := "sha256:"

  /** The digest string of some file content. The source interpolates the
      value of `crypto.subtle.digest(...)`, which it never awaits, so the text
      after the prefix is left to the uninterpreted `env.hash`. */
  function Digest(env: Env, content: seq<Byte>): string {
    DigestPrefix + env.hash(content)
  }

  function BlobUrl(env: Env, digest: string): string {
    env.host + "/api/blobs/" + digest
  }

  /** A rejection whose value is an `Error` with "404" in its message. */
  predicate IsNotFound(r: Reply) {
    r.Threw? && r.exc.Error? && Includes(r.exc.message, "404")
  }

  /** `createBlob(path)`, run after the events in `history`. */
  function CreateBlob(path: Path, env: Env, history: seq<Event>): (s: Step<string>)
    // Without ReadableStream nothing is read or sent.
    ensures !env.hasStreams ==> s == Step(Err(Unsupported), [])
    // Otherwise the file is read first; an unreadable file stops there.
    ensures env.hasStreams ==> |s.trace| >= 1 && s.trace[0] == Read(path)
    ensures env.hasStreams && !Readable(env, path) ==> s == Step(Err(ReadFailed(path)), [Read(path)])
    // A readable file is probed at the URL of its digest, then uploaded to
    // the same URL exactly when the probe answered 404.
    ensures env.hasStreams && Readable(env, path) ==>
      var content := env.fs[path].content;
      var url := BlobUrl(env, Digest(env, content));
      && 2 <= |s.trace| <= 3
      && s.trace[1].Head? && s.trace[1].url == url
      && (|s.trace| == 3 <==> IsNotFound(s.trace[1].reply))
      && (|s.trace| == 3 ==> s.trace[2].Post? && s.trace[2].url == url && s.trace[2].body == content)
    // The recorded replies are the server's answers to those requests, each
    // given the events before it.
    ensures env.hasStreams && Readable(env, path) ==>
      && s.trace[1].reply == env.respond(history + [Read(path)], HeadCall(s.trace[1].url))
      && (|s.trace| == 3 ==>
            s.trace[2].reply == env.respond(history + s.trace[..2], PostCall(s.trace[2].url, s.trace[2].body)))
    // It resolves exactly when the last request did, with the digest it
    // probed; otherwise it rejects with that request's thrown value.
    ensures |s.trace| >= 2 ==>
      var last := s.trace[|s.trace| - 1];
      && (last.Head? || last.Post?)
      && (s.result.Ok? <==> last.reply.Success?)
      && (s.result.Err? ==> s.result.failure == Rethrown(last.reply.exc))
    ensures s.result.Ok? ==>
      && Readable(env, path)
      && s.result.value == Digest(env, env.fs[path].content)
      && s.result.value[..|DigestPrefix|] == DigestPrefix
    // Each call reads its one file and sends at most two requests.
    ensures Reads(s.trace) == (if env.hasStreams then [path] else [])
    ensures Calls(s.trace) <= 2 && CreateCalls(s.trace) == 0
  {
    if !env.hasStreams then Step(Err(Unsupported), [])
    else if !Readable(env, path) then Step(Err(ReadFailed(path)), [Read(path)])
    else
      var content := env.fs[path].content;
      var digest := Digest(env, content);
      var url := BlobUrl(env, digest);
      var read := [Read(path)];
      var probe := env.respond(history + read, HeadCall(url));
      var probed := read + [Head(url, probe)];
      RequestsAfterRead(path, [Head(url, probe)]);
      if probe.Success? then Step(Ok(digest), probed)
      else if IsNotFound(probe) then
        var upload := env.respond(history + probed, PostCall(url, content));
        assert probed + [Post(url, content, upload)] == read + [Head(url, probe), Post(url, content, upload)];
        var posted := read + [Head(url, probe), Post(url, content, upload)];
        assert history + probed + [Post(url, content, upload)] == history + posted;
        RequestsAfterRead(path, [Head(url, probe), Post(url, content, upload)]);
        assert posted[..2] == probed;
        Step(if upload.Success? then Ok(digest) else Err(Rethrown(upload.exc)), posted)
      else Step(Err(Rethrown(probe.exc)), probed)
  }

  /** A read followed by HTTP requests only. */
  lemma {:induction false} RequestsAfterRead(path: Path, requests: seq<Event>)
    requires forall i :: 0 <= i < |requests| ==> requests[i].Head? || requests[i].Post?
    ensures Reads([Read(path)] + requests) == [path]
    ensures Calls([Read(path)] + requests) == |requests|
    ensures CreateCalls([Read(path)] + requests) == 0
    decreases |requests|
  {
    if |requests| > 0 {
      RequestsAfterRead(path, requests[1..]);
      CountsAppend([Read(path)], requests);
      CountsAppend([Read(path)], requests[1..]);
      CountsAppend([requests[0]], requests[1..]);
      assert requests == [requests[0]] + requests[1..];
    } else {
      assert [Read(path)] + requests == [Read(path)];
    }
  }

  /** The server has confirmed that a blob is stored at `url`: a HEAD or a
      POST to it resolved. */
  predicate Confirms(e: Event, url: string) {
    (e.Head? || e.Post?) && e.url == url && e.reply.Success?
  }

  predicate Known(history: seq<Event>, url: string) {
    exists i | 0 <= i < |history| :: Confirms(history[i], url)
  }

  /** A server that keeps what it has confirmed: once a blob is known, every
      later probe for it resolves. */
  ghost predicate DurableStore(env: Env) {
    forall history, url :: Known(history, url) ==> env.respond(history, HeadCall(url)).Success?
  }

  /** Uploading is idempotent against a durable store: once `createBlob`
      has resolved for a file, calling it again for the same file resolves
      to the same digest after a single probe, with no POST. */
  lemma SecondCreateBlobSkipsUpload(path: Path, env: Env, history: seq<Event>)
    requires DurableStore(env)
    requires CreateBlob(path, env, history).result.Ok?
    ensures var first := CreateBlob(path, env, history);
      var second := CreateBlob(path, env, history + first.trace);
      && second.result == first.result
      && |second.trace| == 2
      && second.trace[1].reply.Success?
  {
    var first := CreateBlob(path, env, history);
    var url := BlobUrl(env, first.result.value);
    var h := history + first.trace + [Read(path)];
    var k := |history| + |first.trace| - 1;
    assert h[k] == first.trace[|first.trace| - 1];
    assert Confirms(h[k], url);
    assert Known(h, url);
  }

  /** The digest depends on the content only: two files with the same bytes
      are probed at the same URL and resolve to the same digest, whatever
      their paths and whatever happened before. */
  lemma DigestIsContentAddressed(p1: Path, p2: Path, env: Env, h1: seq<Event>, h2: seq<Event>)
    requires env.hasStreams && Readable(env, p1) && Readable(env, p2)
    requires env.fs[p1].content == env.fs[p2].content
    ensures CreateBlob(p1, env, h1).trace[1].url == CreateBlob(p2, env, h2).trace[1].url
    ensures CreateBlob(p1, env, h1).result.Ok? && CreateBlob(p2, env, h2).result.Ok?
      ==> CreateBlob(p1, env, h1).result == CreateBlob(p2, env, h2).result
  {
  }
}

=== FILE: client.dfy ===
/**
 The `create` entry point of the Deno client: pick the modelfile text and
 its base directory, rewrite it, and hand the request to the base-class
 `create` once.
 */
module Client {
  import opened Runtime
  import opened JsString
  import opened Paths
  import opened Modelfile

  /** JavaScript truthiness of an optional string: set and non-empty. */
  predicate Truthy(s: Option<string>) {
    s.Some? && s.value != ""
  }

  /** `if (request.stream)` picks the streaming overload only for `true`. */
  function OverloadFor(stream: Option<bool>): Overload {
    if stream == Some(true) then Streaming else NonStreaming
  }

  /** The request after `request.modelfile = modelfileContent`. */
  function WithModelfile(request: CreateRequest, modelfile: string): (r: CreateRequest)
    ensures r.modelfile == Some(modelfile)
    ensures r.model == request.model && r.path == request.path && r.stream == request.stream
  {
    request.(modelfile := Some(modelfile))
  }

  /** `return super.create(...)`: `create` settles as the base-class call
      does. */
  function Settle(answer: Created): (r: Result<Response>)
    ensures r.Ok? <==> answer.Resolved?
    ensures answer.Resolved? ==> r.value == answer.response
    ensures answer.Rejected? ==> r.failure == Rethrown(answer.exc)
  {
    match answer
    case Resolved(response) => Ok(response)
    case Rejected(e) => Err(Rethrown(e))
  }

  /** When the base-class create was called, `create` settles exactly as that
      call, made after every earlier event, did. */
  predicate SettlesAsForwarded(env: Env, history: seq<Event>, s: Step<Response>) {
    CreateCalls(s.trace) == 1 ==>
      && |s.trace| > 0
      && var last := s.trace[|s.trace| - 1];
      && last.CreateModel?
      && s.result == Settle(env.downstream(history + s.trace[..|s.trace| - 1], last.request))
  }

  /** The rewrite `create` runs, if it gets that far: the decoded file
      against its directory when a readable path is given, the inline text
      against the working directory when only that is given. */
  function ChosenRewrite(request: CreateRequest, env: Env, history: seq<Event>): Option<Step<string>> {
    if Truthy(request.path) then
      var path := request.path.value;
      if Readable(env, path) then
        Some(ParseModelfile(env.decode(env.fs[path].content), env.paths.dirname(path), env, history + [Read(path)]))
      else None
    else if Truthy(request.modelfile) then Some(ParseModelfile(request.modelfile.value, env.cwd, env, history))
    else None
  }

  /** The chosen rewrite really runs inside `create`: its reads, probes and
      uploads come first (after the read of the path, if one was given), and
      when it rejects, `create` rejects with the same failure, having done
      nothing else. */
  predicate RunsRewrite(request: CreateRequest, env: Env, history: seq<Event>, s: Step<Response>) {
    ChosenRewrite(request, env, history).Some? ==>
      var r := ChosenRewrite(request, env, history).value;
      var before := (if Truthy(request.path) then [Read(request.path.value)] else []) + r.trace;
      && IsPrefix(before, s.trace)
      && (r.result.Err? ==> s == Step(Err(r.result.failure), before))
  }

  /** At most one base-class create call, always the last event, and only
      once the rewrite succeeded; the request it receives differs from the
      caller's only in its modelfile field. */
  predicate ForwardsAtMostOnce(request: CreateRequest, s: Step<Response>) {
    && CreateCalls(s.trace) <= 1
    && (CreateCalls(s.trace) == 1 ==>
          && |s.trace| > 0
          && var last := s.trace[|s.trace| - 1];
          && last.CreateModel?
          && last.request.modelfile.Some?
          && last.request == WithModelfile(request, last.request.modelfile.value)
          && last.overload == OverloadFor(request.stream))
    && (s.result.Ok? ==> CreateCalls(s.trace) == 1)
  }

  /** Hand a rewritten modelfile on: `prefix` is what happened before the
      rewrite, `parsed` the rewrite itself. */
  function Forward(request: CreateRequest, prefix: seq<Event>, parsed: Step<string>, env: Env, history: seq<Event>): (s: Step<Response>)
    ensures parsed.result.Err? ==> s == Step(Err(parsed.result.failure), prefix + parsed.trace)
    ensures parsed.result.Ok? ==>
      && s.trace == prefix + parsed.trace
           + [CreateModel(WithModelfile(request, parsed.result.value), OverloadFor(request.stream))]
      && s.result == Settle(env.downstream(history + prefix + parsed.trace, WithModelfile(request, parsed.result.value)))
    ensures CreateCalls(s.trace) == CreateCalls(prefix + parsed.trace) + (if parsed.result.Ok? then 1 else 0)
    ensures |s.trace| >= |prefix| && s.trace[..|prefix|] == prefix
    ensures IsPrefix(prefix + parsed.trace, s.trace)
    ensures CreateCalls(prefix + parsed.trace) == 0 ==> ForwardsAtMostOnce(request, s)
    ensures CreateCalls(prefix + parsed.trace) == 0 ==> SettlesAsForwarded(env, history, s)
  {
    match parsed.result
    case Err(f) => Step(Err(f), prefix + parsed.trace)
    case Ok(text) =>
      var forwarded := WithModelfile(request, text);
      var before := prefix + parsed.trace;
      var call := CreateModel(forwarded, OverloadFor(request.stream));
      assert history + before == history + prefix + parsed.trace;
      assert (before + [call])[..|before + [call]| - 1] == before;
      assert (before + [call])[..|before|] == before;
      CountsAppend(before, [call]);
      Step(Settle(env.downstream(history + before, forwarded)), before + [call])
  }

  /** `create(request)`, run after the events in `history`. */
  function Create(request: CreateRequest, env: Env, history: seq<Event>): (s: Step<Response>)
    // Neither a path nor inline text: reject before doing anything.
    ensures !Truthy(request.path) && !Truthy(request.modelfile) ==> s == Step(Err(MissingInput), [])
    // A path is read before anything else happens.
    ensures Truthy(request.path) ==> |s.trace| >= 1 && s.trace[0] == Read(request.path.value)
    ensures ForwardsAtMostOnce(request, s)
    // It settles as the base-class call does, and that call is made exactly
    // when the chosen rewrite succeeded.
    ensures SettlesAsForwarded(env, history, s)
    ensures CreateCalls(s.trace) == 1 <==> ChosenRewrite(request, env, history).Some? && ChosenRewrite(request, env, history).value.result.Ok?
    // An unreadable path rejects right after the attempt to read it; any
    // other failure of the rewrite is passed on with all its events.
    ensures Truthy(request.path) && !Readable(env, request.path.value)
      ==> s == Step(Err(ReadFailed(request.path.value)), [Read(request.path.value)])
    ensures RunsRewrite(request, env, history, s)
  {
    if Truthy(request.path) then
      var path := request.path.value;
      var read := [Read(path)];
      if !Readable(env, path) then Step(Err(ReadFailed(path)), read)
      else
        var text := env.decode(env.fs[path].content);
        var parsed := ParseModelfile(text, env.paths.dirname(path), env, history + read);
        CountsAppend(read, parsed.trace);
        Forward(request, read, parsed, env, history)
    else if Truthy(request.modelfile) then
      var parsed := ParseModelfile(request.modelfile.value, env.cwd, env, history);
      assert [] + parsed.trace == parsed.trace;
      Forward(request, [], parsed, env, history)
    else Step(Err(MissingInput), [])
  }

  /** The caller's request object once `create` has settled. The rewritten
      text is assigned to its `modelfile` field in place before the
      base-class call, so it changes whenever the rewrite succeeded, even
      when the base-class call then rejects; it is untouched otherwise. */
  function RequestAfterCreate(request: CreateRequest, env: Env, history: seq<Event>): (r: CreateRequest)
    ensures var s := Create(request, env, history);
      && (CreateCalls(s.trace) == 1 ==> r == s.trace[|s.trace| - 1].request)
      && (CreateCalls(s.trace) == 0 ==> r == request)
  {
    var parsed := ChosenRewrite(request, env, history);
    if parsed.Some? && parsed.value.result.Ok? then WithModelfile(request, parsed.value.result.value) else request
  }

  /** Which text is rewritten against which base directory: the file at
      `path` (decoded) against `dirname(path)` when a path is given,
      otherwise the inline modelfile against the working directory; on
      success the forwarded request carries exactly that rewrite. */
  lemma CreateRewritesTheRightText(request: CreateRequest, env: Env, history: seq<Event>)
    requires Create(request, env, history).result.Ok?
    ensures var s := Create(request, env, history);
      var forwarded := s.trace[|s.trace| - 1].request;
      if Truthy(request.path) then
        var path := request.path.value;
        && Readable(env, path)
        && Ok(forwarded.modelfile.value)
           == ParseModelfile(env.decode(env.fs[path].content), env.paths.dirname(path), env, history + [Read(path)]).result
      else
        && Truthy(request.modelfile)
        && Ok(forwarded.modelfile.value) == ParseModelfile(request.modelfile.value, env.cwd, env, history).result
  {
  }

  /** A given path takes precedence: the inline modelfile is then ignored
      entirely, since it is overwritten before the request is forwarded. */
  lemma PathTakesPrecedence(request: CreateRequest, inline: Option<string>, env: Env, history: seq<Event>)
    requires Truthy(request.path)
    ensures Create(request, env, history) == Create(request.(modelfile := inline), env, history)
  {
  }

  /** Any failure while reading or rewriting means no create call at all. */
  lemma FailedRewriteForwardsNothing(request: CreateRequest, env: Env, history: seq<Event>)
    requires Truthy(request.path) || Truthy(request.modelfile)
    requires Truthy(request.path) ==> Readable(env, request.path.value)
    requires var base := if Truthy(request.path) then env.paths.dirname(request.path.value) else env.cwd;
      var text := if Truthy(request.path) then env.decode(env.fs[request.path.value].content) else request.modelfile.value;
      var h := if Truthy(request.path) then history + [Read(request.path.value)] else history;
      ParseModelfile(text, base, env, h).result.Err?
    ensures Create(request, env, history).result.Err?
    ensures CreateCalls(Create(request, env, history).trace) == 0
  {
    if Truthy(request.path) {
      var path := request.path.value;
      var parsed := ParseModelfile(env.decode(env.fs[path].content), env.paths.dirname(path), env, history + [Read(path)]);
      CountsAppend([Read(path)], parsed.trace);
      assert CreateCalls([Read(path)]) == 0;
    } else {
      var parsed := ParseModelfile(request.modelfile.value, env.cwd, env, history);
      assert [] + parsed.trace == parsed.trace;
    }
  }
}

=== FILE: jsstring.dfy ===
/**
 The few JavaScript string operations the modelfile rewriter relies on:
 `split` on a one-character separator (with and without a limit), `join`,
 `trim`, `toUpperCase` as far as keyword matching needs it, and `includes`.
 A JavaScript string is modelled as a `seq<char>`.
 */
module JsString {

  /** `s.split(sep)` for a one-character separator: the maximal runs between
      separators, so `""` splits into one empty part and `n` separators give
      `n + 1` parts. */
  function Split(s: string, sep: char): (parts: seq<string>)
    ensures |parts| >= 1 && (|parts| == 1 <==> sep !in s)
    ensures forall i :: 0 <= i < |parts| ==> sep !in parts[i]
    decreases |s|
  {
    if |s| == 0 then [""]
    else
      var rest := Split(s[1..], sep);
      assert s == [s[0]] + s[1..];
      if s[0] == sep then [""] + rest
      else [[s[0]] + rest[0]] + rest[1..]
  }

  /** `n` separators give `n + 1` parts. */
  lemma {:induction false} SplitCount(s: string, sep: char)
    ensures |Split(s, sep)| == multiset(s)[sep] + 1
    decreases |s|
  {
    if |s| > 0 {
      SplitCount(s[1..], sep);
      assert s == [s[0]] + s[1..];
    }
  }

  /** `parts.join(sep)`; an empty array joins to the empty string. */
  function Join(parts: seq<string>, sep: char): string
    decreases |parts|
  {
    if |parts| == 0 then ""
    else if |parts| == 1 then parts[0]
    else parts[0] + [sep] + Join(parts[1..], sep)
  }

  lemma JoinTwo(a: string, b: string, sep: char)
    ensures Join([a, b], sep) == a + [sep] + b
  {
    assert [a, b][1..] == [b];
  }

  /** Splitting then joining on the same separator gives back the input. */
  lemma {:induction false} JoinSplit(s: string, sep: char)
    ensures Join(Split(s, sep), sep) == s
    decreases |s|
  {
    if |s| > 0 {
      JoinSplit(s[1..], sep);
      var rest := Split(s[1..], sep);
      if s[0] != sep && |rest| > 1 {
        assert Join(rest, sep) == rest[0] + [sep] + Join(rest[1..], sep);
        assert [s[0]] + rest[0] + [sep] + Join(rest[1..], sep) == [s[0]] + Join(rest, sep);
      }
      assert s == [s[0]] + s[1..];
    }
  }

  /** A string without the separator is a single part. */
  lemma {:induction false} SplitNoSep(a: string, sep: char)
    requires sep !in a
    ensures Split(a, sep) == [a]
    decreases |a|
  {
    if |a| > 0 {
      SplitNoSep(a[1..], sep);
      assert a == [a[0]] + a[1..];
    }
  }

  /** A separator-free prefix followed by a separator is the first part. */
  lemma {:induction false} SplitAppend(a: string, b: string, sep: char)
    requires sep !in a
    ensures Split(a + [sep] + b, sep) == [a] + Split(b, sep)
    decreases |a|
  {
    var s := a + [sep] + b;
    if |a| == 0 {
      assert s == [sep] + b;
      assert s[1..] == b;
    } else {
      assert s[0] == a[0] && s[1..] == a[1..] + [sep] + b;
      SplitAppend(a[1..], b, sep);
      var rest := Split(s[1..], sep);
      assert rest == [a[1..]] + Split(b, sep);
      assert [s[0]] + rest[0] == a;
    }
  }

  /** Joining separator-free parts and splitting again gives back the parts. */
  lemma {:induction false} SplitJoin(parts: seq<string>, sep: char)
    requires |parts| >= 1
    requires forall i :: 0 <= i < |parts| ==> sep !in parts[i]
    ensures Split(Join(parts, sep), sep) == parts
    decreases |parts|
  {
    if |parts| == 1 {
      SplitNoSep(parts[0], sep);
    } else {
      SplitJoin(parts[1..], sep);
      SplitAppend(parts[0], Join(parts[1..], sep), sep);
      assert parts == [parts[0]] + parts[1..];
    }
  }

  /** The first part is a prefix of the input, ended by the first separator
      or by the end of the input; what follows that separator splits into
      the remaining parts. */
  lemma {:induction false} SplitFirst(s: string, sep: char)
    ensures var p := Split(s, sep);
      && p[0] <= s
      && (|p[0]| == |s| <==> sep !in s)
      && (|p[0]| == |s| ==> p == [s])
      && (|p[0]| < |s| ==> s[|p[0]|] == sep && Split(s[|p[0]| + 1..], sep) == p[1..])
    decreases |s|
  {
    if |s| > 0 {
      SplitFirst(s[1..], sep);
      assert s == [s[0]] + s[1..];
      if s[0] != sep {
        var rest := Split(s[1..], sep);
        if |rest[0]| < |s[1..]| {
          assert s[|rest[0]| + 2..] == s[1..][|rest[0]| + 1..];
        }
      }
    }
  }

  /** What `s.split(sep, 2)` keeps: the first part, and the second when
      there is a separator; the second ends at the next separator or at the
      end of the input. */
  lemma FirstTwoParts(s: string, sep: char)
    ensures var p := Split(s, sep);
      && p[0] <= s && sep !in p[0]
      && (|p| >= 2 <==> sep in s)
      && (|p| >= 2 ==>
            var n := |p[0]| + 1 + |p[1]|;
            && p[0] + [sep] + p[1] <= s
            && (n == |s| || s[n] == sep))
  {
    var p := Split(s, sep);
    SplitFirst(s, sep);
    assert sep !in p[0];
    if |p[0]| < |s| {
      SecondPart(s, s[|p[0]| + 1..], p, sep);
    }
  }

  lemma SecondPart(s: string, rest: string, p: seq<string>, sep: char)
    requires |p| >= 1 && s == p[0] + [sep] + rest && Split(rest, sep) == p[1..]
    ensures |p| >= 2
    ensures var n := |p[0]| + 1 + |p[1]|;
      && p[0] + [sep] + p[1] <= s
      && (n == |s| || s[n] == sep)
  {
    SplitFirst(rest, sep);
    assert p[1] == Split(rest, sep)[0];
    var a := p[0] + [sep];
    assert s == a + rest;
    assert s[..|a| + |p[1]|] == a + rest[..|p[1]|];
    if |a| + |p[1]| < |s| {
      assert s[|a| + |p[1]|] == rest[|p[1]|];
    }
  }

  /** ECMAScript `WhiteSpace` and `LineTerminator` code points: what
      `String.prototype.trim` removes. */
  predicate IsWhiteSpace(c: char) {
    var n := c as int;
    || n == 0x09 || n == 0x0A || n == 0x0B || n == 0x0C || n == 0x0D
    || n == 0x20 || n == 0xA0 || n == 0x1680
    || (0x2000 <= n <= 0x200A)
    || n == 0x2028 || n == 0x2029 || n == 0x202F || n == 0x205F
    || n == 0x3000 || n == 0xFEFF
  }

  /** Drops leading white space: the result is the suffix that starts at the
      first non-white-space character. */
  function TrimStart(s: string): (t: string)
    ensures |t| <= |s| && t == s[|s| - |t|..]
    ensures forall i :: 0 <= i < |s| - |t| ==> IsWhiteSpace(s[i])
    ensures |t| > 0 ==> !IsWhiteSpace(t[0])
    decreases |s|
  {
    if |s| > 0 && IsWhiteSpace(s[0]) then TrimStart(s[1..]) else s
  }

  /** Drops trailing white space: the result is the prefix that ends at the
      last non-white-space character. */
  function TrimEnd(s: string): (t: string)
    ensures |t| <= |s| && t == s[..|t|]
    ensures forall i :: |t| <= i < |s| ==> IsWhiteSpace(s[i])
    ensures |t| > 0 ==> !IsWhiteSpace(t[|t| - 1])
    decreases |s|
  {
    if |s| > 0 && IsWhiteSpace(s[|s| - 1]) then TrimEnd(s[..|s| - 1]) else s
  }

  /** `t` is the infix of `s` starting at `i`, and everything of `s` around
      it is white space. */
  predicate TrimmedAt(s: string, t: string, i: int) {
    && 0 <= i <= |s| - |t|
    && t == s[i..i + |t|]
    && (forall j :: 0 <= j < i ==> IsWhiteSpace(s[j]))
    && (forall j :: i + |t| <= j < |s| ==> IsWhiteSpace(s[j]))
  }

  /** `s.trim()`: the infix of `s` left after removing white space at both
      ends. */
  function Trim(s: string): (t: string)
    ensures exists i :: TrimmedAt(s, t, i)
    ensures |t| > 0 ==> !IsWhiteSpace(t[0]) && !IsWhiteSpace(t[|t| - 1])
    ensures forall i :: 0 <= i < |s| && !IsWhiteSpace(s[i]) ==> |t| > 0
  {
    var a := TrimStart(s);
    var t := TrimEnd(a);
    assert TrimmedAt(s, t, |s| - |a|);
    t
  }

  /** A string with no white space at either end is its own trim. */
  lemma TrimKeepsTrimmed(s: string)
    requires |s| > 0 ==> !IsWhiteSpace(s[0]) && !IsWhiteSpace(s[|s| - 1])
    ensures Trim(s) == s
  {
  }

  /** Upper-casing restricted to ASCII letters: each lower-case letter
      becomes the upper-case letter at the same place in the alphabet, and
      every other character is kept. */
  function UpperAscii(s: string): (u: string)
    ensures |u| == |s|
    ensures forall i :: 0 <= i < |s| ==> !('a' <= u[i] <= 'z')
    ensures forall i :: 0 <= i < |s| ==>
      if 'a' <= s[i] <= 'z' then 'A' <= u[i] <= 'Z' && u[i] as int - 'A' as int == s[i] as int - 'a' as int
      else u[i] == s[i]
  {
    seq(|s|, i requires 0 <= i < |s| =>
      if 'a' <= s[i] <= 'z' then (s[i] as int - 32) as char else s[i])
  }

  /** `s` equals the upper-case word `upper` up to the case of its
      letters. */
  predicate EqualIgnoringCase(s: string, upper: string) {
    && |s| == |upper|
    && forall i :: 0 <= i < |s| ==> s[i] == upper[i] || s[i] as int == upper[i] as int + 32
  }

  /** Upper-casing gives an upper-case word exactly when the input equals it
      up to case. */
  lemma UpperAsciiIff(s: string, upper: string)
    requires forall i :: 0 <= i < |upper| ==> 'A' <= upper[i] <= 'Z'
    ensures UpperAscii(s) == upper <==> EqualIgnoringCase(s, upper)
  {
    var u := UpperAscii(s);
    if EqualIgnoringCase(s, upper) {
      forall i | 0 <= i < |s|
        ensures u[i] == upper[i]
      {
      }
    }
  }

  /** `sub` occurs in `s` starting at index `i`. */
  predicate OccursAt(s: string, sub: string, i: int) {
    0 <= i <= |s| - |sub| && s[i..i + |sub|] == sub
  }

  /** `s.includes(sub)`. */
  predicate Includes(s: string, sub: string) {
    exists i | 0 <= i <= |s| - |sub| :: OccursAt(s, sub, i)
  }
}

=== FILE: modelfile.dfy ===
/**
 The modelfile rewriter (`parseModelfile`): every FROM/ADAPTER line whose
 argument names an existing local path is rewritten to `@<digest>` after the
 file is uploaded; every other line is kept.
 */
module Modelfile {
  import opened Runtime
  import opened JsString
  import opened Paths
  import opened Blobs

  /** `const [command, args] = line.split(' ', 2)`: `args` is `undefined`
      when the line has no space. */
  datatype Directive = Directive(command: string, args: Option<string>)

  function SplitCommand(line: string): (d: Directive)
    // The command is the text before the first space ...
    ensures d.command <= line && ' ' !in d.command
    ensures d.args.None? <==> ' ' !in line
    // Without a space the whole line is the command.
    ensures d.args.None? ==> d.command == line
    // ... and the argument the text between the first and the second space
    // (or the end of the line); whatever follows is dropped.
    ensures d.args.Some? ==>
      var n := |d.command| + 1 + |d.args.value|;
      && ' ' !in d.args.value
      && d.command + " " + d.args.value <= line
      && (n == |line| || line[n] == ' ')
  {
    var parts := Split(line, ' ');
    FirstTwoParts(line, ' ');
    if |parts| >= 2 then
      Directive(parts[0], Some(parts[1]))
    else
      SplitNoSep(line, ' ');
      Directive(parts[0], None)
  }

  /** `['FROM', 'ADAPTER'].includes(command.toUpperCase())`. Upper-casing is
      taken on ASCII letters only: no other character upper-cases into text
      that could complete either keyword. */
  predicate IsKeyword(command: string) {
    var u := UpperAscii(command);
    u == "FROM" || u == "ADAPTER"
  }

  /** The keywords are matched regardless of the case of each letter. */
  lemma IsKeywordIff(command: string)
    ensures IsKeyword(command) <==> EqualIgnoringCase(command, "FROM") || EqualIgnoringCase(command, "ADAPTER")
  {
    UpperAsciiIff(command, "FROM");
    UpperAsciiIff(command, "ADAPTER");
  }

  /** The local path a line uploads, if any: a FROM/ADAPTER line with an
      argument whose resolved path `stat` finds. */
  function LocalTarget(line: string, mfDir: string, env: Env): Option<Path> {
    var d := SplitCommand(line);
    if IsKeyword(d.command) && d.args.Some? then
      var p := ResolvePath(Trim(d.args.value), mfDir, env);
      if FileExists(env, p) then Some(p) else None
    else None
  }

  function TargetOf(line: string, mfDir: string, env: Env): seq<Path> {
    match LocalTarget(line, mfDir, env)
    case Some(p) => [p]
    case None => []
  }

  /** The local paths a modelfile uploads, line by line, repeats included. */
  function Targets(lines: seq<string>, mfDir: string, env: Env): seq<Path>
    decreases |lines|
  {
    if |lines| == 0 then []
    else TargetOf(lines[0], mfDir, env) + Targets(lines[1..], mfDir, env)
  }

  /** Reference for one line of a successful rewrite, independent of the
      transport: a non-directive line is kept as it is; a directive naming a
      local file becomes `<command> @<digest of its content>`; a directive
      naming nothing local becomes `<command> <args>`. */
  predicate Rewrites(line: string, out: string, mfDir: string, env: Env) {
    var d := SplitCommand(line);
    if !IsKeyword(d.command) then out == line
    else
      && d.args.Some?
      && match LocalTarget(line, mfDir, env)
         case Some(p) =>
           Readable(env, p) && out == d.command + " @" + Digest(env, env.fs[p].content)
         case None => out == d.command + " " + d.args.value
  }

  /** A line that needs no upload and cannot fail: it is no FROM/ADAPTER
      line, or one with an argument that names nothing local. */
  predicate Passive(line: string, mfDir: string, env: Env) {
    var d := SplitCommand(line);
    (!IsKeyword(d.command) || d.args.Some?) && LocalTarget(line, mfDir, env).None?
  }

  /** One iteration of the loop in `parseModelfile`. */
  function RewriteLine(line: string, mfDir: string, env: Env, history: seq<Event>): (s: Step<string>)
    ensures s.result.Ok? ==> Rewrites(line, s.result.value, mfDir, env)
    ensures LocalTarget(line, mfDir, env).None? ==> s.trace == []
    // A line that names nothing local fails only when it is a FROM/ADAPTER
    // line without an argument, and then with the `TypeError`.
    ensures Passive(line, mfDir, env) ==> s.result.Ok?
    ensures IsKeyword(SplitCommand(line).command) && SplitCommand(line).args.None? ==> s == Step(Err(ArgsUndefined), [])
    // A line naming a local file succeeds or fails as its upload does,
    // with the same failure and the same events: nothing is swallowed.
    ensures LocalTarget(line, mfDir, env).Some? ==>
      var blob := CreateBlob(LocalTarget(line, mfDir, env).value, env, history);
      && s.trace == blob.trace
      && (s.result.Err? <==> blob.result.Err?)
      && (blob.result.Err? ==> s.result.failure == blob.result.failure)
    ensures Reads(s.trace) == (if env.hasStreams then TargetOf(line, mfDir, env) else [])
    ensures s.result.Ok? ==> Reads(s.trace) == TargetOf(line, mfDir, env)
    ensures Calls(s.trace) <= 2 * |Reads(s.trace)| && CreateCalls(s.trace) == 0
  {
    var d := SplitCommand(line);
    if !IsKeyword(d.command) then Step(Ok(line), [])
    else if d.args.None? then Step(Err(ArgsUndefined), [])
    else
      var p := ResolvePath(Trim(d.args.value), mfDir, env);
      if FileExists(env, p) then
        var blob := CreateBlob(p, env, history);
        match blob.result
        case Ok(digest) => Step(Ok(d.command + " @" + digest), blob.trace)
        case Err(f) => Step(Err(f), blob.trace)
      else Step(Ok(d.command + " " + d.args.value), [])
  }

  /** The loop of `parseModelfile`: lines are handled one after the other,
      each seeing the events of those before it, and the first failure
      abandons the rest. */
  function RewriteLines(lines: seq<string>, mfDir: string, env: Env, history: seq<Event>): (s: Step<seq<string>>)
    // A successful rewrite keeps the number of lines, and line i of the
    // output is determined by line i of the input alone.
    ensures s.result.Ok? ==>
      && |s.result.value| == |lines|
      && forall i :: 0 <= i < |lines| ==> Rewrites(lines[i], s.result.value[i], mfDir, env)
    // Files are read in line order, once per referencing line; a failure
    // stops the reading early.
    ensures IsPrefix(Reads(s.trace), Targets(lines, mfDir, env))
    ensures s.result.Ok? ==> Reads(s.trace) == Targets(lines, mfDir, env)
    ensures Calls(s.trace) <= 2 * |Reads(s.trace)| && CreateCalls(s.trace) == 0
    decreases |lines|
  {
    if |lines| == 0 then Step(Ok([]), [])
    else
      var first := RewriteLine(lines[0], mfDir, env, history);
      assert Targets(lines, mfDir, env) == TargetOf(lines[0], mfDir, env) + Targets(lines[1..], mfDir, env);
      match first.result
      case Err(f) =>
        PrefixOfAppend(Reads(first.trace), TargetOf(lines[0], mfDir, env), Targets(lines[1..], mfDir, env));
        Step(Err(f), first.trace)
      case Ok(line) =>
        var rest := RewriteLines(lines[1..], mfDir, env, history + first.trace);
        CountsAppend(first.trace, rest.trace);
        PrefixAfter(Reads(first.trace), Reads(rest.trace), Targets(lines[1..], mfDir, env));
        match rest.result
        case Err(f) => Step(Err(f), first.trace + rest.trace)
        case Ok(tail) =>
          PointwiseCons((a, b) => Rewrites(a, b, mfDir, env), lines, line, tail);
          Step(Ok([line] + tail), first.trace + rest.trace)
  }

  /** A property of every element holds of the head and of every element
      of the tail. */
  lemma EveryTail<A>(p: A -> bool, xs: seq<A>)
    requires |xs| > 0
    requires forall i :: 0 <= i < |xs| ==> p(xs[i])
    ensures p(xs[0])
    ensures forall i :: 0 <= i < |xs[1..]| ==> p(xs[1..][i])
  {
    forall i | 0 <= i < |xs[1..]|
      ensures p(xs[1..][i])
    {
      assert xs[1..][i] == xs[i + 1];
    }
  }

  /** Element i of `[y] + ys` is related to element i of `xs` when the
      heads and the tails are related pointwise. */
  lemma PointwiseCons<A, B>(rel: (A, B) -> bool, xs: seq<A>, y: B, ys: seq<B>)
    requires |xs| > 0 && |ys| == |xs| - 1
    requires rel(xs[0], y)
    requires forall i :: 0 <= i < |ys| ==> rel(xs[1..][i], ys[i])
    ensures forall i :: 0 <= i < |xs| ==> rel(xs[i], ([y] + ys)[i])
  {
    forall i | 0 <= i < |xs|
      ensures rel(xs[i], ([y] + ys)[i])
    {
      if i > 0 {
        assert xs[i] == xs[1..][i - 1] && ([y] + ys)[i] == ys[i - 1];
      }
    }
  }

  /** `parseModelfile(modelfile, mfDir)`, run after the events in `history`. */
  function ParseModelfile(modelfile: string, mfDir: string, env: Env, history: seq<Event>): (s: Step<string>)
    ensures IsPrefix(Reads(s.trace), Targets(Split(modelfile, '\n'), mfDir, env))
    ensures s.result.Ok? ==> Reads(s.trace) == Targets(Split(modelfile, '\n'), mfDir, env)
    ensures Calls(s.trace) <= 2 * |Reads(s.trace)| && CreateCalls(s.trace) == 0
    // The loop's events are the rewrite's, and its rejection is passed on
    // unchanged.
    ensures var r := RewriteLines(Split(modelfile, '\n'), mfDir, env, history);
      && s.trace == r.trace
      && (s.result.Err? <==> r.result.Err?)
      && (r.result.Err? ==> s.result.failure == r.result.failure)
  {
    var r := RewriteLines(Split(modelfile, '\n'), mfDir, env, history);
    match r.result
    case Ok(lines) => Step(Ok(Join(lines, '\n')), r.trace)
    case Err(f) => Step(Err(f), r.trace)
  }

  /** The digest text never contains a line break. */
  ghost predicate SingleLineDigests(env: Env) {
    forall c :: '\n' !in env.hash(c)
  }

  lemma PrefixKeepsOut(a: string, b: string, c: char)
    requires a <= b && c !in b
    ensures c !in a
  {
  }

  /** A rewritten line never gains a line break. */
  lemma RewriteStaysOnOneLine(line: string, out: string, mfDir: string, env: Env)
    requires '\n' !in line && SingleLineDigests(env)
    requires Rewrites(line, out, mfDir, env)
    ensures '\n' !in out
  {
    var d := SplitCommand(line);
    PrefixKeepsOut(d.command, line, '\n');
    if IsKeyword(d.command) {
      match LocalTarget(line, mfDir, env)
      case Some(p) =>
        assert out == d.command + " @" + DigestPrefix + env.hash(env.fs[p].content);
      case None =>
        PrefixKeepsOut(out, line, '\n');
    }
  }

  /** Line-count preservation: when the digests are single-line text, a
      successful rewrite has exactly as many '\n'-separated lines as its
      input, and output line i is the rewrite of input line i. */
  lemma ParsePreservesLines(modelfile: string, mfDir: string, env: Env, history: seq<Event>)
    requires SingleLineDigests(env)
    requires ParseModelfile(modelfile, mfDir, env, history).result.Ok?
    ensures var ins := Split(modelfile, '\n');
      var outs := Split(ParseModelfile(modelfile, mfDir, env, history).result.value, '\n');
      && |outs| == |ins|
      && forall i :: 0 <= i < |ins| ==> Rewrites(ins[i], outs[i], mfDir, env)
  {
    var ins := Split(modelfile, '\n');
    var v := RewriteLines(ins, mfDir, env, history).result.value;
    forall i | 0 <= i < |v|
      ensures '\n' !in v[i]
    {
      RewriteStaysOnOneLine(ins[i], v[i], mfDir, env);
    }
    SplitJoin(v, '\n');
  }

  /** A line the rewriter leaves exactly as it is, reading and sending
      nothing. */
  predicate Settled(line: string, mfDir: string, env: Env) {
    var d := SplitCommand(line);
    !IsKeyword(d.command)
    || (d.args.Some? && LocalTarget(line, mfDir, env).None? && d.command + " " + d.args.value == line)
  }

  lemma SettledLineIsFixed(line: string, mfDir: string, env: Env, history: seq<Event>)
    requires Settled(line, mfDir, env)
    ensures RewriteLine(line, mfDir, env, history) == Step(Ok(line), [])
  {
  }

  lemma {:induction false} SettledLinesAreFixed(lines: seq<string>, mfDir: string, env: Env, history: seq<Event>)
    requires forall i :: 0 <= i < |lines| ==> Settled(lines[i], mfDir, env)
    ensures RewriteLines(lines, mfDir, env, history) == Step(Ok(lines), [])
    decreases |lines|
  {
    if |lines| > 0 {
      EveryTail((line: string) => Settled(line, mfDir, env), lines);
      SettledLineIsFixed(lines[0], mfDir, env, history);
      assert history + [] == history;
      SettledLinesAreFixed(lines[1..], mfDir, env, history);
      assert [lines[0]] + lines[1..] == lines;
    }
  }

  /** A modelfile all of whose lines are settled (in particular one without
      FROM/ADAPTER lines) comes back unchanged, with nothing read or sent. */
  lemma SettledModelfileIsFixed(modelfile: string, mfDir: string, env: Env, history: seq<Event>)
    requires forall i :: 0 <= i < |Split(modelfile, '\n')| ==> Settled(Split(modelfile, '\n')[i], mfDir, env)
    ensures ParseModelfile(modelfile, mfDir, env, history) == Step(Ok(modelfile), [])
  {
    SettledLinesAreFixed(Split(modelfile, '\n'), mfDir, env, history);
    JoinSplit(modelfile, '\n');
  }

  /** Blank lines and lines starting with a space have an empty command, so
      they pass through unchanged without even a `stat`. */
  lemma BlankAndIndentedLinesPassThrough(line: string, mfDir: string, env: Env, history: seq<Event>)
    requires line == "" || line[0] == ' '
    ensures RewriteLine(line, mfDir, env, history) == Step(Ok(line), [])
  {
  }

  /** A command followed by one space and a space-free argument splits back
      into that command and argument. */
  lemma SplitCommandOfJoined(command: string, args: string)
    requires ' ' !in command && ' ' !in args
    ensures SplitCommand(command + " " + args) == Directive(command, Some(args))
  {
    SplitAppend(command, args, ' ');
    SplitNoSep(args, ' ');
  }

  /** A FROM/ADAPTER line whose path does not exist is rewritten to
      `<command> <args>`, which gives back the line exactly when it holds
      one space: anything after a second space is dropped. */
  lemma UnresolvedDirectiveKeptIffOneSpace(line: string, mfDir: string, env: Env, history: seq<Event>)
    requires IsKeyword(SplitCommand(line).command) && ' ' in line
    requires LocalTarget(line, mfDir, env).None?
    ensures var d := SplitCommand(line);
      && RewriteLine(line, mfDir, env, history) == Step(Ok(d.command + " " + d.args.value), [])
      && (d.command + " " + d.args.value == line <==> multiset(line)[' '] == 1)
  {
    var d := SplitCommand(line);
    var kept := d.command + " " + d.args.value;
    var n := |kept|;
    assert line == kept + line[n..];
    assert multiset(d.command)[' '] == 0 && multiset(d.args.value)[' '] == 0;
    assert multiset(line) == multiset(d.command) + multiset{' '} + multiset(d.args.value) + multiset(line[n..]);
    if n < |line| {
      assert line[n..][0] == ' ';
      assert multiset(line[n..])[' '] > 0;
    }
  }

  /** A FROM/ADAPTER line without a space makes the whole rewrite reject
      with the `TypeError` of `args.trim()`, unless an earlier line has
      already failed. */
  lemma {:induction false} DirectiveWithoutArgumentAborts(lines: seq<string>, k: int, mfDir: string, env: Env, history: seq<Event>)
    requires 0 <= k < |lines|
    requires IsKeyword(SplitCommand(lines[k]).command) && ' ' !in lines[k]
    ensures RewriteLines(lines, mfDir, env, history).result.Err?
    decreases |lines|
  {
    var first := RewriteLine(lines[0], mfDir, env, history);
    if k > 0 && first.result.Ok? {
      DirectiveWithoutArgumentAborts(lines[1..], k - 1, mfDir, env, history + first.trace);
    }
  }

  /** No failure is swallowed: when the lines before line `k` have been
      rewritten, whatever they uploaded, a failure of line `k` is the
      failure of the whole loop, whose events are those of the earlier lines
      followed by those of line `k`. */
  lemma {:induction false} FirstFailureAborts(lines: seq<string>, k: int, outs: seq<string>, t: seq<Event>,
                                              mfDir: string, env: Env, history: seq<Event>)
    requires 0 <= k < |lines|
    requires RewriteLines(lines[..k], mfDir, env, history) == Step(Ok(outs), t)
    requires RewriteLine(lines[k], mfDir, env, history + t).result.Err?
    ensures var failed := RewriteLine(lines[k], mfDir, env, history + t);
      RewriteLines(lines, mfDir, env, history) == Step(Err(failed.result.failure), t + failed.trace)
    decreases k
  {
    var failed := RewriteLine(lines[k], mfDir, env, history + t);
    if k == 0 {
      assert lines[..0] == [];
      assert history + t == history && t + failed.trace == failed.trace;
    } else {
      var first, rest := OkPrefix(lines[..k], outs, t, mfDir, env, history);
      ShiftPrefix(lines, k);
      Associative(history, first.trace, rest.trace);
      FirstFailureAborts(lines[1..], k - 1, rest.result.value, rest.trace, mfDir, env, history + first.trace);
      AfterOkLine(lines, first, mfDir, env, history);
      Associative(first.trace, rest.trace, failed.trace);
    }
  }

  lemma ShiftPrefix<T>(xs: seq<T>, k: int)
    requires 0 < k < |xs|
    ensures xs[..k][0] == xs[0] && xs[..k][1..] == xs[1..][..k - 1] && xs[1..][k - 1] == xs[k]
  {
  }

  /** A successful rewrite of a non-empty list: its head rewrote, and so did
      the tail after the head's events. */
  lemma OkPrefix(lines: seq<string>, outs: seq<string>, t: seq<Event>, mfDir: string, env: Env, history: seq<Event>)
      returns (first: Step<string>, rest: Step<seq<string>>)
    requires |lines| > 0
    requires RewriteLines(lines, mfDir, env, history) == Step(Ok(outs), t)
    ensures first == RewriteLine(lines[0], mfDir, env, history) && first.result.Ok?
    ensures rest == RewriteLines(lines[1..], mfDir, env, history + first.trace) && rest.result.Ok?
    ensures t == first.trace + rest.trace
  {
    first := RewriteLine(lines[0], mfDir, env, history);
    rest := RewriteLines(lines[1..], mfDir, env, history + first.trace);
  }

  /** After a head that rewrote, the loop fails exactly as its tail does,
      with the head's events first. */
  lemma AfterOkLine(lines: seq<string>, first: Step<string>, mfDir: string, env: Env, history: seq<Event>)
    requires |lines| > 0
    requires first == RewriteLine(lines[0], mfDir, env, history) && first.result.Ok?
    ensures var rest := RewriteLines(lines[1..], mfDir, env, history + first.trace);
      rest.result.Err? ==>
        RewriteLines(lines, mfDir, env, history) == Step(Err(rest.result.failure), first.trace + rest.trace)
  {
  }

  /** No failure is invented: a rewrite that rejects has a line that is a
      FROM/ADAPTER line without an argument or names a local file. */
  lemma {:induction false} OnlyActiveLinesFail(lines: seq<string>, mfDir: string, env: Env, history: seq<Event>)
    requires RewriteLines(lines, mfDir, env, history).result.Err?
    ensures exists k :: 0 <= k < |lines| && !Passive(lines[k], mfDir, env)
    decreases |lines|
  {
    var first := RewriteLine(lines[0], mfDir, env, history);
    if first.result.Ok? {
      OnlyActiveLinesFail(lines[1..], mfDir, env, history + first.trace);
      var k :| 0 <= k < |lines[1..]| && !Passive(lines[1..][k], mfDir, env);
      assert lines[1..][k] == lines[k + 1];
    }
  }

  /** Uploads are not de-duplicated: two lines naming the same local file
      read it, probe for it and possibly upload it twice. */
  lemma RepeatedReferenceIsReadTwice(line: string, mfDir: string, env: Env, history: seq<Event>)
    requires LocalTarget(line, mfDir, env).Some?
    requires RewriteLines([line, line], mfDir, env, history).result.Ok?
    ensures var p := LocalTarget(line, mfDir, env).value;
      Reads(RewriteLines([line, line], mfDir, env, history).trace) == [p, p]
  {
    TargetsOfRepeat(line, mfDir, env);
  }

  lemma TargetsOfRepeat(line: string, mfDir: string, env: Env)
    requires LocalTarget(line, mfDir, env).Some?
    ensures var p := LocalTarget(line, mfDir, env).value;
      Targets([line, line], mfDir, env) == [p, p]
  {
    var p := LocalTarget(line, mfDir, env).value;
    assert [line, line][1..] == [line] && [line][1..] == [];
    assert Targets([line], mfDir, env) == [p];
  }

  /** `fileExists` accepts a directory, and `readFile` then fails on it: a
      FROM/ADAPTER line naming a directory rejects the rewrite. */
  lemma DirectoryDirectiveFails(line: string, mfDir: string, env: Env, history: seq<Event>)
    requires env.hasStreams
    requires LocalTarget(line, mfDir, env).Some?
    requires env.fs[LocalTarget(line, mfDir, env).value].Directory?
    ensures var p := LocalTarget(line, mfDir, env).value;
      RewriteLine(line, mfDir, env, history) == Step(Err(ReadFailed(p)), [Read(p)])
  {
  }

  lemma {:induction false} NoStreamsNoReads(lines: seq<string>, mfDir: string, env: Env, history: seq<Event>)
    requires !env.hasStreams
    ensures RewriteLines(lines, mfDir, env, history).trace == []
    decreases |lines|
  {
    if |lines| > 0 {
      var first := RewriteLine(lines[0], mfDir, env, history);
      if first.result.Ok? {
        NoStreamsNoReads(lines[1..], mfDir, env, history + first.trace);
      }
    }
  }

  /** Without `ReadableStream` nothing is ever read or sent, and a modelfile
      that references a local file rejects. */
  lemma WithoutStreamsNothingIsSent(modelfile: string, mfDir: string, env: Env, history: seq<Event>)
    requires !env.hasStreams
    ensures ParseModelfile(modelfile, mfDir, env, history).trace == []
    ensures Targets(Split(modelfile, '\n'), mfDir, env) != []
      ==> ParseModelfile(modelfile, mfDir, env, history).result.Err?
  {
    NoStreamsNoReads(Split(modelfile, '\n'), mfDir, env, history);
  }

  /** The digest text contains no space. */
  ghost predicate SpaceFreeDigests(env: Env) {
    forall c :: ' ' !in env.hash(c)
  }

  /** No `@<digest>` argument names an existing local path. */
  ghost predicate DigestsAreRemote(env: Env, mfDir: string) {
    forall c :: !FileExists(env, ResolvePath(Trim("@" + Digest(env, c)), mfDir, env))
  }

  /** A directive line whose space-free argument names nothing local is
      settled. */
  lemma KeptDirectiveIsSettled(command: string, args: string, mfDir: string, env: Env)
    requires IsKeyword(command) && ' ' !in command && ' ' !in args
    requires !FileExists(env, ResolvePath(Trim(args), mfDir, env))
    ensures Settled(command + " " + args, mfDir, env)
  {
    SplitCommandOfJoined(command, args);
  }

  lemma UploadedDirectiveIsSettled(command: string, content: seq<Byte>, mfDir: string, env: Env)
    requires IsKeyword(command) && ' ' !in command
    requires SpaceFreeDigests(env) && DigestsAreRemote(env, mfDir)
    ensures Settled(command + " @" + Digest(env, content), mfDir, env)
  {
    var args := "@" + Digest(env, content);
    assert !FileExists(env, ResolvePath(Trim(args), mfDir, env));
    DigestArgumentHasNoSpace(env, content);
    assert command + " @" + Digest(env, content) == command + " " + args;
    KeptDirectiveIsSettled(command, args, mfDir, env);
  }

  lemma DigestArgumentHasNoSpace(env: Env, content: seq<Byte>)
    requires SpaceFreeDigests(env)
    ensures ' ' !in "@" + Digest(env, content)
  {
    assert "@" + Digest(env, content) == "@" + DigestPrefix + env.hash(content);
    assert ' ' !in env.hash(content);
  }

  lemma RewrittenLineIsSettled(line: string, out: string, mfDir: string, env: Env)
    requires SpaceFreeDigests(env) && DigestsAreRemote(env, mfDir)
    requires Rewrites(line, out, mfDir, env)
    ensures Settled(out, mfDir, env)
  {
    var d := SplitCommand(line);
    if IsKeyword(d.command) {
      var t := LocalTarget(line, mfDir, env);
      if t.Some? {
        UploadedDirectiveIsSettled(d.command, env.fs[t.value].content, mfDir, env);
      } else {
        KeptDirectiveIsSettled(d.command, d.args.value, mfDir, env);
      }
    }
  }

  /** Rewriting is idempotent when digests are single-line, space-free and
      name nothing local: a second pass over the output returns it unchanged
      and sends nothing. */
  lemma SecondPassIsNoOp(modelfile: string, mfDir: string, env: Env, history: seq<Event>, later: seq<Event>)
    requires SingleLineDigests(env) && SpaceFreeDigests(env) && DigestsAreRemote(env, mfDir)
    requires ParseModelfile(modelfile, mfDir, env, history).result.Ok?
    ensures var out := ParseModelfile(modelfile, mfDir, env, history).result.value;
      ParseModelfile(out, mfDir, env, later) == Step(Ok(out), [])
  {
    var out := ParseModelfile(modelfile, mfDir, env, history).result.value;
    var ins := Split(modelfile, '\n');
    var outs := Split(out, '\n');
    ParsePreservesLines(modelfile, mfDir, env, history);
    forall i | 0 <= i < |outs|
      ensures Settled(outs[i], mfDir, env)
    {
      RewrittenLineIsSettled(ins[i], outs[i], mfDir, env);
    }
    SettledModelfileIsFixed(out, mfDir, env, later);
  }
}

=== FILE: paths.dfy ===
/**
 Path resolution and the existence test for a FROM/ADAPTER argument
 (`resolvePath` and `fileExists` of the Deno client).
 */
module Paths {
  import opened Runtime

  /** `Deno.env.get("HOME") || ""`: an unset and an empty HOME both give "". */
  function HomeDir(env: Env): string {
    match env.home
    case Some(h) => h
    case None => ""
  }

  predicate StartsWithTilde(s: string) {
    |s| > 0 && s[0] == '~'
  }

  /** `resolvePath`. */
  function ResolvePath(input: string, mfDir: string, env: Env): Path {
    if StartsWithTilde(input) then env.paths.join(HomeDir(env), input[1..])
    else env.paths.resolve(mfDir, input)
  }

  /** A leading `~` is replaced by the home directory, the rest being joined
      onto it, and the base directory plays no part; any other argument is
      resolved against the base directory and HOME plays no part. */
  lemma ResolvePathCases(input: string, mfDir: string, otherDir: string, otherHome: Option<string>, env: Env)
    ensures StartsWithTilde(input) ==>
      && ResolvePath(input, mfDir, env) == env.paths.join(HomeDir(env), input[1..])
      && ResolvePath(input, mfDir, env) == ResolvePath(input, otherDir, env)
    ensures !StartsWithTilde(input) ==>
      && ResolvePath(input, mfDir, env) == env.paths.resolve(mfDir, input)
      && ResolvePath(input, mfDir, env) == ResolvePath(input, mfDir, env.(home := otherHome))
  {
  }

  /** An unset HOME and an empty HOME resolve `~` arguments alike. */
  lemma UnsetHomeIsEmptyHome(input: string, mfDir: string, env: Env)
    requires StartsWithTilde(input)
    ensures ResolvePath(input, mfDir, env.(home := None)) == ResolvePath(input, mfDir, env.(home := Some("")))
    ensures ResolvePath(input, mfDir, env.(home := None)) == env.paths.join("", input[1..])
  {
  }

  /** `fileExists`: true exactly when `stat` succeeds. Whether the path is a
      regular file is not looked at, so a directory exists too. */
  predicate FileExists(env: Env, p: Path) {
    p in env.fs
  }

  /** `Deno.readFile` succeeds exactly on regular files. */
  predicate Readable(env: Env, p: Path) {
    p in env.fs && env.fs[p].File?
  }
}

=== FILE: runtime.dfy ===
/**
 The world the client runs in, made explicit: the file system, the
 environment variables and working directory it reads, the path and hashing
 libraries it calls, and the HTTP transport and base-class `create` it talks
 to. Everything the client does to the outside is recorded as a trace of
 events; each HTTP request carries the reply it got.
 */
module Runtime {

  datatype Option<T> = None | Some(value: T)

  type Byte = b: int | 0 <= b < 256

  type Path = string

  /** What `Deno.stat` finds at a path. `stat` succeeds for both kinds;
      `Deno.readFile` succeeds only for a file. */
  datatype Node = File(content: seq<Byte>) | Directory

  /** A thrown JavaScript value: an `Error` instance with its message, or
      anything else. */
  datatype Exc = Error(message: string) | NonError(description: string)

  /** How a transport call settled: resolved, or rejected with a thrown value. */
  datatype Reply = Success | Threw(exc: Exc)

  /** A transport request the client issues. */
  datatype Call = HeadCall(url: string) | PostCall(url: string, body: seq<Byte>)

  /** The fields of a create request the client looks at; every other field
      is forwarded as it is. */
  datatype CreateRequest = CreateRequest(
    model: string,
    path: Option<string>,
    modelfile: Option<string>,
    stream: Option<bool>)

  /** Which `create` overload of the base class receives the request. */
  datatype Overload = Streaming | NonStreaming

  /** One observable step, in the order it happens. */
  datatype Event =
    | Read(path: Path)
    | Head(url: string, reply: Reply)
    | Post(url: string, body: seq<Byte>, reply: Reply)
    | CreateModel(request: CreateRequest, overload: Overload)

  /** What the base-class `create` settles to: one progress value, a live
      sequence of progress values, or a rejection. */
  datatype Response = Final(status: string) | Progress(statuses: seq<string>)

  datatype Created = Resolved(response: Response) | Rejected(exc: Exc)

  /** Why a create call rejects. */
  datatype Failure =
      /** `ReadableStream` is missing: an `Error` saying that streaming
          uploads are not supported is thrown. */
    | Unsupported
      /** `Deno.readFile` failed on this path (absent, a directory, ...). */
    | ReadFailed(path: Path)
      /** A FROM/ADAPTER line without a space: `args` is `undefined` and
          `args.trim()` throws a `TypeError`. */
    | ArgsUndefined
      /** A transport or base-class rejection, passed on unchanged. */
    | Rethrown(exc: Exc)
      /** Neither `path` nor `modelfile` was given: an `Error` asking for
          one of them is thrown. */
    | MissingInput

  datatype Result<T> = Ok(value: T) | Err(failure: Failure)

  /** The outcome of one operation together with the events it caused. */
  datatype Step<T> = Step(result: Result<T>, trace: seq<Event>)

  /** The `path` functions of the Deno standard library, left uninterpreted. */
  datatype PathOps = PathOps(
    join: (string, string) -> string,
    resolve: (string, string) -> string,
    dirname: string -> string)

  /** Everything outside the client. `respond` answers a transport call given
      the events that came before it, so the server may remember uploads;
      `downstream` is the base-class `create`. */
  datatype Env = Env(
    fs: map<Path, Node>,
    home: Option<string>,
    cwd: string,
    hasStreams: bool,
    host: string,
    paths: PathOps,
    hash: seq<Byte> -> string,
    decode: seq<Byte> -> string,
    respond: (seq<Event>, Call) -> Reply,
    downstream: (seq<Event>, CreateRequest) -> Created)

  /** The paths read, in order. */
  function Reads(t: seq<Event>): seq<Path>
    decreases |t|
  {
    if |t| == 0 then []
    else (if t[0].Read? then [t[0].path] else []) + Reads(t[1..])
  }

  /** The number of HEAD and POST requests sent. */
  function Calls(t: seq<Event>): nat
    decreases |t|
  {
    if |t| == 0 then 0
    else (if t[0].Head? || t[0].Post? then 1 else 0) + Calls(t[1..])
  }

  /** The number of base-class `create` calls made. */
  function CreateCalls(t: seq<Event>): nat
    decreases |t|
  {
    if |t| == 0 then 0
    else (if t[0].CreateModel? then 1 else 0) + CreateCalls(t[1..])
  }

  /** The three counts are additive over concatenated traces. */
  lemma {:induction false} CountsAppend(a: seq<Event>, b: seq<Event>)
    ensures Reads(a + b) == Reads(a) + Reads(b)
    ensures Calls(a + b) == Calls(a) + Calls(b)
    ensures CreateCalls(a + b) == CreateCalls(a) + CreateCalls(b)
    decreases |a|
  {
    if |a| == 0 {
      assert a + b == b;
    } else {
      CountsAppend(a[1..], b);
      assert (a + b)[1..] == a[1..] + b;
    }
  }

  lemma Associative<T>(a: seq<T>, b: seq<T>, c: seq<T>)
    ensures a + b + c == a + (b + c)
  {
  }

  predicate IsPrefix<T(==)>(a: seq<T>, b: seq<T>) {
    |a| <= |b| && a == b[..|a|]
  }

  lemma PrefixOfAppend<T>(a: seq<T>, b: seq<T>, c: seq<T>)
    requires a == b || a == []
    ensures IsPrefix(a, b + c)
  {
  }

  lemma PrefixAfter<T>(a: seq<T>, b: seq<T>, c: seq<T>)
    requires IsPrefix(b, c)
    ensures IsPrefix(a + b, a + c)
  {
    assert (a + c)[..|a + b|] == a + c[..|b|];
  }
}

=== FILE: scenarios.dfy ===
/**
 Concrete runs of the rewriter: an upload after a 404 probe, a registry
 reference left alone, and what the un-awaited digest does to a second
 pass.
 */
module Scenarios {
  import opened Runtime
  import opened JsString
  import opened Paths
  import opened Blobs
  import opened Modelfile

  /** A relative path argument such as `./base.bin`: one space-free,
      single-line word with no white space at either end. */
  predicate PlainArgument(arg: string) {
    && |arg| > 0 && ' ' !in arg && '\n' !in arg
    && !IsWhiteSpace(arg[0]) && !IsWhiteSpace(arg[|arg| - 1])
    && arg[0] != '~'
  }

  /** Two single-line texts joined by a line break split back into them. */
  lemma TwoLines(a: string, b: string)
    requires '\n' !in a && '\n' !in b
    ensures Split(a + "\n" + b, '\n') == [a, b]
  {
    SplitAppend(a, b, '\n');
    SplitNoSep(b, '\n');
  }

  /** `<command> <args>` with a plain argument splits into exactly that
      command and argument, and the argument is its own trim. */
  lemma DirectiveSplits(command: string, args: string)
    requires ' ' !in command && ' ' !in args
    requires |args| > 0 && !IsWhiteSpace(args[0]) && !IsWhiteSpace(args[|args| - 1])
    ensures SplitCommand(command + " " + args) == Directive(command, Some(args))
    ensures Trim(args) == args
  {
    SplitCommandOfJoined(command, args);
    TrimKeepsTrimmed(args);
  }

  /** A FROM/ADAPTER command word, in any letter case. */
  predicate Keyword(command: string) {
    IsKeyword(command) && ' ' !in command && '\n' !in command
  }

  /** A line such as `PARAMETER temperature 0.7`: single-line, and not a
      FROM/ADAPTER directive. */
  predicate OtherLine(line: string) {
    '\n' !in line && !IsKeyword(SplitCommand(line).command)
  }

  /** The events of an upload after a 404 probe: read, probe, post. */
  function UploadTrace(path: Path, env: Env, notFound: Reply): seq<Event>
    requires Readable(env, path)
  {
    var content := env.fs[path].content;
    var url := BlobUrl(env, Digest(env, content));
    [Read(path), Head(url, notFound), Post(url, content, Success)]
  }

  /** A server that answers the probe with a 404 and accepts the upload. */
  predicate UploadAccepted(path: Path, env: Env, notFound: Reply)
    requires Readable(env, path)
  {
    var content := env.fs[path].content;
    var url := BlobUrl(env, Digest(env, content));
    && IsNotFound(notFound)
    && env.respond([Read(path)], HeadCall(url)) == notFound
    && env.respond([Read(path), Head(url, notFound)], PostCall(url, content)) == Success
  }

  /** The directive line of `UploadAfterNotFound` on its own. */
  lemma UploadedLine(command: string, arg: string, mfDir: string, env: Env, notFound: Reply)
    requires Keyword(command) && PlainArgument(arg)
    requires env.hasStreams && Readable(env, env.paths.resolve(mfDir, arg))
    requires UploadAccepted(env.paths.resolve(mfDir, arg), env, notFound)
    ensures var path := env.paths.resolve(mfDir, arg);
      RewriteLine(command + " " + arg, mfDir, env, [])
      == Step(Ok(command + " @" + Digest(env, env.fs[path].content)), UploadTrace(path, env, notFound))
  {
    var path := env.paths.resolve(mfDir, arg);
    var url := BlobUrl(env, Digest(env, env.fs[path].content));
    DirectiveSplits(command, arg);
    assert ResolvePath(Trim(arg), mfDir, env) == path;
    assert [] + [Read(path)] == [Read(path)];
    assert [] + ([Read(path)] + [Head(url, notFound)]) == [Read(path), Head(url, notFound)];
    var blob := CreateBlob(path, env, []);
    assert blob == Step(Ok(Digest(env, env.fs[path].content)), UploadTrace(path, env, notFound));
  }

  /** A modelfile `<command> <arg>` followed by another line, as in
      `FROM ./base.bin` / `PARAMETER temperature 0.7`, where `<command>` is
      FROM or ADAPTER in any case and `<arg>` names a local file. When the
      probe answers 404 and the upload succeeds, the file is read once,
      probed once and uploaded once to `/api/blobs/sha256:<digest>`. The
      directive becomes `<command> @sha256:<digest>` and the other line is
      kept. */
  lemma UploadAfterNotFound(command: string, arg: string, other: string, mfDir: string, env: Env, notFound: Reply)
    requires Keyword(command) && PlainArgument(arg) && OtherLine(other)
    requires env.hasStreams && Readable(env, env.paths.resolve(mfDir, arg))
    requires UploadAccepted(env.paths.resolve(mfDir, arg), env, notFound)
    requires '\n' !in env.hash(env.fs[env.paths.resolve(mfDir, arg)].content)
    ensures var path := env.paths.resolve(mfDir, arg);
      ParseModelfile(command + " " + arg + "\n" + other, mfDir, env, [])
      == Step(Ok(command + " @" + Digest(env, env.fs[path].content) + "\n" + other), UploadTrace(path, env, notFound))
  {
    var path := env.paths.resolve(mfDir, arg);
    UploadedLine(command, arg, mfDir, env, notFound);
    DigestLineIsOneLine(command, env, env.fs[path].content);
    FirstLineThenOther(command + " " + arg, other, command + " @" + Digest(env, env.fs[path].content),
      UploadTrace(path, env, notFound), mfDir, env);
  }

  /** A modelfile of one line followed by a line the rewriter keeps: the
      first line's rewrite decides the result and the events. */
  lemma FirstLineThenOther(first: string, other: string, out: string, trace: seq<Event>, mfDir: string, env: Env)
    requires '\n' !in first && OtherLine(other)
    requires RewriteLine(first, mfDir, env, []) == Step(Ok(out), trace)
    ensures ParseModelfile(first + "\n" + other, mfDir, env, []) == Step(Ok(out + "\n" + other), trace)
  {
    FirstThenKept(first, other, out, trace, mfDir, env);
    TwoLinesJoined(first, other, out, trace, mfDir, env);
  }

  lemma FirstThenKept(first: string, other: string, out: string, trace: seq<Event>, mfDir: string, env: Env)
    requires OtherLine(other)
    requires RewriteLine(first, mfDir, env, []) == Step(Ok(out), trace)
    ensures RewriteLines([first, other], mfDir, env, []) == Step(Ok([out, other]), trace)
  {
    PairParts(first, other, out);
    EmptyEnds(trace);
    KeptTail(other, mfDir, env, trace);
    ConsLines([first, other], out, [other], trace, [], mfDir, env, []);
  }

  lemma TwoLinesJoined(first: string, other: string, out: string, trace: seq<Event>, mfDir: string, env: Env)
    requires '\n' !in first && OtherLine(other)
    requires RewriteLines([first, other], mfDir, env, []) == Step(Ok([out, other]), trace)
    ensures ParseModelfile(first + "\n" + other, mfDir, env, []) == Step(Ok(out + "\n" + other), trace)
  {
    TwoLines(first, other);
    ParseOfLines(first + "\n" + other, [first, other], [out, other], trace, mfDir, env, []);
    JoinTwo(out, other, '\n');
  }

  /** Solver hint: the parts of a two-element list, stated generically so
      that the scenario proofs do not unfold the rewriter to find them. */
  lemma PairParts<T>(a: T, b: T, c: T)
    ensures [a, b][0] == a && [a, b][1..] == [b] && [c] + [b] == [c, b]
  {
  }

  /** Solver hint: the empty sequence is a unit of concatenation. */
  lemma EmptyEnds<T>(xs: seq<T>)
    ensures [] + xs == xs && xs + [] == xs
  {
  }

  /** A line that is no directive, as a tail of the loop. */
  lemma KeptTail(other: string, mfDir: string, env: Env, history: seq<Event>)
    requires OtherLine(other)
    ensures RewriteLines([other], mfDir, env, history) == Step(Ok([other]), [])
  {
    assert Settled([other][0], mfDir, env);
    SettledLinesAreFixed([other], mfDir, env, history);
  }

  /** One step of the loop: a line that rewrites, followed by lines that
      rewrite after it. */
  lemma ConsLines(lines: seq<string>, out: string, tail: seq<string>, t1: seq<Event>, t2: seq<Event>,
                  mfDir: string, env: Env, history: seq<Event>)
    requires |lines| > 0
    requires RewriteLine(lines[0], mfDir, env, history) == Step(Ok(out), t1)
    requires RewriteLines(lines[1..], mfDir, env, history + t1) == Step(Ok(tail), t2)
    ensures RewriteLines(lines, mfDir, env, history) == Step(Ok([out] + tail), t1 + t2)
  {
  }

  /** `parseModelfile` joins the rewritten lines of its split input. */
  lemma ParseOfLines(modelfile: string, lines: seq<string>, outs: seq<string>, trace: seq<Event>, mfDir: string, env: Env, history: seq<Event>)
    requires Split(modelfile, '\n') == lines
    requires RewriteLines(lines, mfDir, env, history) == Step(Ok(outs), trace)
    ensures ParseModelfile(modelfile, mfDir, env, history) == Step(Ok(Join(outs, '\n')), trace)
  {
  }

  /** `<command> @<digest>` stays on one line when the digest text does. */
  lemma DigestLineIsOneLine(command: string, env: Env, content: seq<Byte>)
    requires '\n' !in command && '\n' !in env.hash(content)
    ensures '\n' !in command + " @" + Digest(env, content)
  {
    assert command + " @" + Digest(env, content) == command + " @" + DigestPrefix + env.hash(content);
    assert '\n' !in " @" && '\n' !in DigestPrefix;
  }

  /** The reply of a server without the blob, as the client sees it. */
  lemma PageNotFoundIsNotFound()
    ensures IsNotFound(Threw(Error("404 page not found")))
  {
    assert OccursAt("404 page not found", "404", 0);
  }

  /** A modelfile `<command> <name>` followed by another line, as in
      `FROM llama2` / `PARAMETER temperature 0.7`, where `<name>` names no
      local path: the text comes back unchanged and nothing is read or
      sent. */
  lemma RegistryReferenceUntouched(command: string, name: string, other: string, mfDir: string, env: Env, history: seq<Event>)
    requires Keyword(command) && PlainArgument(name) && OtherLine(other)
    requires !FileExists(env, env.paths.resolve(mfDir, name))
    ensures var modelfile := command + " " + name + "\n" + other;
      ParseModelfile(modelfile, mfDir, env, history) == Step(Ok(modelfile), [])
  {
    var from := command + " " + name;
    TwoLines(from, other);
    DirectiveSplits(command, name);
    assert Settled(from, mfDir, env);
    SettledModelfileIsFixed(from + "\n" + other, mfDir, env, history);
  }

  /** The string form of the un-awaited digest Promise is two words. */
  lemma PromiseTextIsTwoWords()
    ensures "[object Promise]" == "[object" + " " + "Promise]"
    ensures ' ' !in "[object" && ' ' !in "Promise]" && '\n' !in "[object Promise]"
  {
  }

  /** With a digest text of two words, as the string form
      `[object Promise]` of the un-awaited digest is, a second pass over
      the rewritten `<command> <arg>` is not a no-op: the space inside the digest
      text cuts the reference short. */
  lemma TwoWordDigestBreaksSecondPass(command: string, arg: string, word1: string, word2: string, mfDir: string, env: Env)
    requires Keyword(command) && PlainArgument(arg)
    requires ' ' !in word1 && ' ' !in word2 && '\n' !in word1 + word2
    requires |word1| > 0 && !IsWhiteSpace(word1[|word1| - 1])
    requires env.hasStreams && Readable(env, env.paths.resolve(mfDir, arg))
    requires env.hash(env.fs[env.paths.resolve(mfDir, arg)].content) == word1 + " " + word2
    requires var path := env.paths.resolve(mfDir, arg);
      env.respond([Read(path)], HeadCall(BlobUrl(env, Digest(env, env.fs[path].content)))).Success?
    requires !FileExists(env, env.paths.resolve(mfDir, "@" + DigestPrefix + word1))
    ensures var first := ParseModelfile(command + " " + arg, mfDir, env, []);
      && first.result == Ok(command + " @" + DigestPrefix + (word1 + " " + word2))
      && ParseModelfile(first.result.value, mfDir, env, first.trace).result == Ok(command + " @" + DigestPrefix + word1)
  {
    var trace := FirstPassOfKnownBlob(command, arg, word1 + " " + word2, mfDir, env);
    SecondPassTruncates(command, word1, word2, mfDir, env, trace);
  }

  /** The code as written: every digest text is `[object Promise]`, so a
      second pass over `<command> @sha256:[object Promise]` leaves
      `<command> @sha256:[object`. */
  lemma PromiseDigestBreaksSecondPass(command: string, arg: string, mfDir: string, env: Env)
    requires Keyword(command) && PlainArgument(arg)
    requires forall c :: env.hash(c) == "[object Promise]"
    requires env.hasStreams && Readable(env, env.paths.resolve(mfDir, arg))
    requires var path := env.paths.resolve(mfDir, arg);
      env.respond([Read(path)], HeadCall(BlobUrl(env, Digest(env, env.fs[path].content)))).Success?
    requires !FileExists(env, env.paths.resolve(mfDir, "@" + DigestPrefix + "[object"))
    ensures var first := ParseModelfile(command + " " + arg, mfDir, env, []);
      && first.result == Ok(command + " @" + DigestPrefix + "[object Promise]")
      && ParseModelfile(first.result.value, mfDir, env, first.trace).result == Ok(command + " @" + DigestPrefix + "[object")
  {
    PromiseTextIsTwoWords();
    assert env.hash(env.fs[env.paths.resolve(mfDir, arg)].content) == "[object" + " " + "Promise]";
    TwoWordDigestBreaksSecondPass(command, arg, "[object", "Promise]", mfDir, env);
  }

  lemma FirstPassOfKnownBlob(command: string, arg: string, text: string, mfDir: string, env: Env) returns (trace: seq<Event>)
    requires Keyword(command) && PlainArgument(arg)
    requires env.hasStreams && Readable(env, env.paths.resolve(mfDir, arg))
    requires env.hash(env.fs[env.paths.resolve(mfDir, arg)].content) == text
    requires var path := env.paths.resolve(mfDir, arg);
      env.respond([Read(path)], HeadCall(BlobUrl(env, Digest(env, env.fs[path].content)))).Success?
    ensures ParseModelfile(command + " " + arg, mfDir, env, []) == Step(Ok(command + " @" + DigestPrefix + text), trace)
  {
    KnownBlobLine(command, arg, text, mfDir, env);
    OneLine(command + " " + arg, mfDir, env, []);
    trace := RewriteLine(command + " " + arg, mfDir, env, []).trace;
  }

  lemma SecondPassTruncates(command: string, word1: string, word2: string, mfDir: string, env: Env, history: seq<Event>)
    requires Keyword(command) && ' ' !in word1 && ' ' !in word2 && '\n' !in word1 + word2
    requires |word1| > 0 && !IsWhiteSpace(word1[|word1| - 1])
    requires !FileExists(env, env.paths.resolve(mfDir, "@" + DigestPrefix + word1))
    ensures ParseModelfile(command + " @" + DigestPrefix + (word1 + " " + word2), mfDir, env, history).result
      == Ok(command + " @" + DigestPrefix + word1)
  {
    var cut := "@" + DigestPrefix + word1;
    DigestReference(word1, word2);
    Regroup(command, word1, word2);
    TruncatedModelfile(command, cut, word2, mfDir, env, history);
  }

  lemma Regroup(command: string, word1: string, word2: string)
    ensures command + " @" + DigestPrefix + (word1 + " " + word2) == command + " " + ("@" + DigestPrefix + word1 + " " + word2)
    ensures command + " @" + DigestPrefix + word1 == command + " " + ("@" + DigestPrefix + word1)
  {
    assert " @" == " " + "@";
  }

  /** `@sha256:<word1>` is one space-free word with no white space at
      either end. */
  lemma DigestReference(word1: string, word2: string)
    requires ' ' !in word1 && ' ' !in word2 && '\n' !in word1 + word2
    requires |word1| > 0 && !IsWhiteSpace(word1[|word1| - 1])
    ensures var cut := "@" + DigestPrefix + word1;
      && ' ' !in cut && '\n' !in cut + word2
      && |cut| > 0 && !IsWhiteSpace(cut[0]) && !IsWhiteSpace(cut[|cut| - 1]) && cut[0] != '~'
  {
    var cut := "@" + DigestPrefix + word1;
    assert cut[0] == '@' && cut[|cut| - 1] == word1[|word1| - 1];
    assert ' ' !in DigestPrefix && '\n' !in DigestPrefix;
  }

  lemma TruncatedModelfile(command: string, cut: string, rest: string, mfDir: string, env: Env, history: seq<Event>)
    requires Keyword(command) && ' ' !in cut && ' ' !in rest && '\n' !in cut + rest
    requires |cut| > 0 && !IsWhiteSpace(cut[0]) && !IsWhiteSpace(cut[|cut| - 1]) && cut[0] != '~'
    requires !FileExists(env, env.paths.resolve(mfDir, cut))
    ensures ParseModelfile(command + " " + (cut + " " + rest), mfDir, env, history).result == Ok(command + " " + cut)
  {
    TruncatedLine(command, cut, rest, mfDir, env, history);
    var line := command + " " + (cut + " " + rest);
    assert '\n' !in line;
    OneLine(line, mfDir, env, history);
  }

  /** A directive naming a local file whose blob the server already has is
      rewritten after a single probe. */
  lemma KnownBlobLine(command: string, arg: string, text: string, mfDir: string, env: Env)
    requires Keyword(command) && PlainArgument(arg)
    requires env.hasStreams && Readable(env, env.paths.resolve(mfDir, arg))
    requires env.hash(env.fs[env.paths.resolve(mfDir, arg)].content) == text
    requires var path := env.paths.resolve(mfDir, arg);
      env.respond([Read(path)], HeadCall(BlobUrl(env, Digest(env, env.fs[path].content)))).Success?
    ensures RewriteLine(command + " " + arg, mfDir, env, []).result == Ok(command + " @" + DigestPrefix + text)
  {
    var path := env.paths.resolve(mfDir, arg);
    DirectiveSplits(command, arg);
    assert ResolvePath(Trim(arg), mfDir, env) == path;
    assert [] + [Read(path)] == [Read(path)];
    assert command + " @" + Digest(env, env.fs[path].content) == command + " @" + DigestPrefix + text;
  }

  /** A directive whose argument holds a space is cut at that space. */
  lemma TruncatedLine(command: string, cut: string, rest: string, mfDir: string, env: Env, history: seq<Event>)
    requires Keyword(command) && ' ' !in cut && ' ' !in rest
    requires |cut| > 0 && !IsWhiteSpace(cut[0]) && !IsWhiteSpace(cut[|cut| - 1]) && cut[0] != '~'
    requires !FileExists(env, env.paths.resolve(mfDir, cut))
    ensures RewriteLine(command + " " + (cut + " " + rest), mfDir, env, history) == Step(Ok(command + " " + cut), [])
  {
    SplitAppend(command, cut + " " + rest, ' ');
    SplitAppend(cut, rest, ' ');
    assert command + " " + (cut + " " + rest) == command + [' '] + (cut + [' '] + rest);
    assert SplitCommand(command + " " + (cut + " " + rest)) == Directive(command, Some(cut));
    TrimKeepsTrimmed(cut);
  }

  /** A single-line modelfile is rewritten as its one line is. */
  lemma OneLine(line: string, mfDir: string, env: Env, history: seq<Event>)
    requires '\n' !in line
    requires RewriteLine(line, mfDir, env, history).result.Ok?
    ensures var r := RewriteLine(line, mfDir, env, history);
      ParseModelfile(line, mfDir, env, history) == Step(Ok(r.result.value), r.trace)
  {
    var r := RewriteLine(line, mfDir, env, history);
    SplitNoSep(line, '\n');
    assert RewriteLines([], mfDir, env, history + r.trace) == Step(Ok([]), []);
    assert [line][1..] == [] && r.trace + [] == r.trace && [r.result.value] + [] == [r.result.value];
    ConsLines([line], r.result.value, [], r.trace, [], mfDir, env, history);
    ParseOfLines(line, [line], [r.result.value], r.trace, mfDir, env, history);
  }

  /** The command words the rewriter looks for, in any letter case. */
  lemma KeywordsInAnyCase()
    ensures Keyword("FROM") && Keyword("from") && Keyword("ADAPTER") && Keyword("Adapter")
    ensures !Keyword("PARAMETER")
  {
  }
}
